=== FILE: README.md ===
# Media muxing core of adk-hackathon, in Dafny

This project models `hack_agent/mux_audio.py`, the one file of the repository
with real logic. It covers three parts:

- **Caption formatter.** `string_to_webvtt` and its inner `format_time` turn a
  caption text and a time range into a single-cue WebVTT document: a `WEBVTT`
  header, a blank line, a `start --> end` cue-timing line, then the text. Times
  are written as `HH:MM:SS.mmm`. A range whose end is not after its start yields
  a fixed error string instead of a document (`webvtt.dfy`, with the decimal
  padding in `decimal.dfy`).
- **Job builder.** This is the declarative part of `mux_audio`. It checks the
  two `gs://` URIs, resolves the project, and uploads the caption file when
  there is a caption. It then assembles the Transcoder job: inputs, one edit
  atom, elementary streams, mux streams, an HLS manifest and a one-day
  retention (`job_spec.dfy`; the properties are in `job_spec_properties.dfy`).
- **Job driver.** It submits the job and polls its processing state. The first
  success returns the output location. The first failure returns an
  `Error: Exception - ...` text. Any exception raised inside the `try` becomes
  `Error: <class> - <message>`: those of the create and get calls, and the
  `ValueError` of the enum lookup at line 373 for a state code outside the
  enum (`poll.dfy`). `mux_audio.dfy` puts the
  builder and the driver together, once as the source writes it and once
  with the corrected builder.

Times and offsets are integer milliseconds. The environment variables, the
credentials lookup, the two `uuid4()` hex strings, the upload's outcome and the
backend's responses are all parameters. The backend is a finite script: the
create result and then the successive get results. A script that ends before
a terminal state leaves the driver still polling.

`common.dfy` holds the shared `Option`, `Result`, `Exc` and `StartsWith`.

## Model

| member | source | states |
|---|---|---|
| Decimal.Pad | hack_agent/mux_audio.py:135 | `{n:0W}` writes n with at least W characters and all its digits, never cut; reading the digits back gives n |
| WebVtt.ToClock | hack_agent/mux_audio.py:126-132 | after clamping a negative time to 0, minutes < 60, seconds < 60 and milliseconds < 1000; h·3600000 + m·60000 + s·1000 + ms rebuilds the clamped time exactly |
| WebVtt.ClockUnique | hack_agent/mux_audio.py:129-132 | every valid hours/minutes/seconds/milliseconds split of a time is the one `format_time` computes |
| WebVtt.FormatTime | hack_agent/mux_audio.py:123-135 | the timestamp uses only digits, `:` and `.`; parsing it as `H+:MM:SS.mmm` gives back the clamped time; a time ≤ 0 renders as `00:00:00.000` |
| WebVtt.FormatTimeWidth | hack_agent/mux_audio.py:135 | minutes and seconds take 2 characters and milliseconds 3; hours take at least 2, so the stamp is 12 characters exactly when the time is under 100 hours |
| WebVtt.StringToWebVtt | hack_agent/mux_audio.py:120-146 | the result is the fixed error text exactly when end ≤ start; otherwise it starts with `WEBVTT\n\n`, and parsing it yields the clamped start and end and the caller's text verbatim; the document is exactly the header, the formatted start, ` --> `, the formatted end, a newline and the text |
| WebVtt.FormatTimeExample | hack_agent/mux_audio.py:129-135 | 3661.25 s renders as `01:01:01.250` |
| WebVtt.CaptionExample | hack_agent/mux_audio.py:138-146 | "hi" over [0, 5.5 s] is exactly `WEBVTT\n\n00:00:00.000 --> 00:00:05.500\nhi` |
| JobSpec.CheckUris | hack_agent/mux_audio.py:182-187 | a missing URI is reported before any prefix check, and the video URI before the audio URI; both pass exactly when both start with `gs://` |
| JobSpec.ResolveProject | hack_agent/mux_audio.py:191-196 | a project id is obtained exactly when the lookup returns a non-empty id; an exception from the lookup becomes a project error carrying its message, and an empty id a project error carrying `Could not infer Google Cloud Project ID.` |
| JobSpec.RaisedBy | hack_agent/mux_audio.py:181-196 | every build error surfaces as a `ValueError`, except a failed upload, whose own exception passes through unchanged; a project error reads `Failed to infer Google Cloud Project ID: ` followed by the reason; the range error carries `string_to_webvtt`'s message |
| JobSpec.SplitOffset | hack_agent/mux_audio.py:243-245 | the seconds and nanoseconds add back to the offset exactly; the nanoseconds are under one second in size and carry the offset's sign, which is truncation toward zero |
| JobSpec.FinalOutputUri | hack_agent/mux_audio.py:180-202 | the reported location is `gs://<bucket>/muxed/` followed by the fresh hex and `.mp4` |
| JobSpec.FinalOutputUriInjective | hack_agent/mux_audio.py:201-202 | two different fresh hex strings give two different locations in the same bucket |
| JobSpec.BuildJobAsWritten | hack_agent/mux_audio.py:178-361 | URI errors win over everything else, then the project error, then the upload's exception; the build succeeds exactly when the URIs pass, the project resolves and any caption upload succeeds; the manifest always lists all three mux keys |
| JobSpec.BuildJob | hack_agent/mux_audio.py:178-361 | the corrected builder: the same order of checks (URIs, project, upload), except that a caption with end ≤ 0 is rejected right after the URI checks and before any upload; on success the parent is `projects/<id>/locations/<loc>`, the reported location is the fresh `.mp4` name, and a caption is uploaded exactly when one was given |
| JobSpecProperties.JobInputs | hack_agent/mux_audio.py:211-255 | for the job of any request and manifest list, so for the source's job too (whose contract says it is this job with all three manifest keys), including a caption with end ≤ 0: the input keys are video then audio, plus the text key exactly when there is a caption, which reads `gs://<bucket>/text_tracks/<hex>.srt`; the one edit atom `atom_part_0` lists exactly those keys in order and spans 0 to the end offset |
| JobSpecProperties.JobStreams | hack_agent/mux_audio.py:257-300 | for the job of any request and manifest list: exactly one video stream (1280×720, 5,000,000 bps, 30 fps) and one audio stream (aac, 128,000 bps); a text stream exactly when there is a caption, mapping `atom_part_0` to the text input |
| JobSpecProperties.JobMuxes | hack_agent/mux_audio.py:313-361 | for the job of any request and manifest list: the mux keys are `sd-hls-fmp4` and `audio-hls-fmp4` (fmp4), plus `text-vtt-en` (vtt) exactly when there is a caption, with the end offset, of whatever sign, as its segment duration; one HLS manifest `manifest.m3u8` naming the given list; output under `muxed/`; a TTL of 1 day |
| JobSpecProperties.BuildJobInputs | hack_agent/mux_audio.py:211-255 | for the corrected builder: the input keys are video then audio, plus the text key exactly when there is a caption; the one edit atom `atom_part_0` lists exactly those keys in order and spans 0 to the end offset; the caption input reads the uploaded object |
| JobSpecProperties.BuildJobStreams | hack_agent/mux_audio.py:257-300 | for the corrected builder: exactly one video stream (1280×720, 5,000,000 bps, 30 fps) and one audio stream (aac, 128,000 bps); a text stream exists exactly when there is a caption, and it maps `atom_part_0` to the text input |
| JobSpecProperties.BuildJobMuxes | hack_agent/mux_audio.py:313-361 | for the corrected builder: the mux keys are `sd-hls-fmp4` and `audio-hls-fmp4`, plus `text-vtt-en` exactly when there is a caption, with the end offset as its segment duration; one HLS manifest `manifest.m3u8` naming exactly those mux streams; output under `muxed/`; a TTL of 1 day |
| JobSpecProperties.BuildJobWellFormed | hack_agent/mux_audio.py:211-360 | every key the job uses names something the job declares, and no key is declared twice |
| JobSpecProperties.AsWrittenWellFormedIffCaption | hack_agent/mux_audio.py:350-360 | the job as written is well formed exactly when there is a caption; without one, the manifest names `text-vtt-en`, which is not a mux stream of the job |
| JobSpecProperties.AsWrittenUploadsErrorText | hack_agent/mux_audio.py:221-233 | with a caption and an end offset ≤ 0, the source still builds the job, and the file it uploads is the error text, which is not a WebVTT document |
| JobSpecProperties.BuildJobUploadsCaption | hack_agent/mux_audio.py:221-241 | the uploaded file is `text_tracks/<hex>.srt` in the bucket, stored as `text/plain`; it parses as one cue from 0 to the end offset carrying the caption verbatim |
| JobSpecProperties.BuildersAgree | hack_agent/mux_audio.py:178-361 | wherever the corrected builder succeeds, the as-written one does too and agrees on everything except the manifest list, which differs only when there is no caption |
| Poll.PollResponses | hack_agent/mux_audio.py:369-394 | the loop stops at the first terminal response, after one poll per response up to and including it, and returns that response's verdict; with no terminal response it keeps polling |
| Poll.PollLoop | hack_agent/mux_audio.py:369-394 | the same loop written as a `while` loop meets the same specification and gives the same run |
| Poll.Drive | hack_agent/mux_audio.py:363-402 | a create exception is returned as `Error: <class> - <message>` with no poll; otherwise the poll loop's specification holds |
| Poll.WaitingStatesOnlyDelay | hack_agent/mux_audio.py:386-394 | responses that end nothing (PENDING, RUNNING or UNSPECIFIED states) only add one poll each and leave the outcome unchanged |
| Poll.UnknownStateReportsValueError | hack_agent/mux_audio.py:372-373 | a state code outside the enum fails the name lookup before any branch is taken, so the loop ends at that poll with `Error: ValueError - <message>` |
| Poll.PollResponsesAsWritten | hack_agent/mux_audio.py:369-402 | the loop as written, if the enum has no member `UNSPECIFIED`: it never polls more than once; a first response that would wait ends it with the `AttributeError` text; a terminal first response gives the intended loop's answer |
| Poll.AsWrittenAgreesIff | hack_agent/mux_audio.py:369-394 | the loop as written and the intended loop agree exactly when the script is empty or its first response is terminal |
| Poll.AsWrittenNeverWaits | hack_agent/mux_audio.py:386 | RUNNING, RUNNING, SUCCEEDED: the loop as written returns `Error: AttributeError - …` after one poll, where the intended loop returns the location after three |
| Poll.VerdictDistinguishesSuccess | hack_agent/mux_audio.py:376-402 | the returned text is the output location exactly when the first terminal response is SUCCEEDED; any other answer starts with `Error: ` |
| Poll.SucceedsOnThirdPoll | hack_agent/mux_audio.py:369-378 | RUNNING, RUNNING, SUCCEEDED means three polls and then the output location |
| Poll.FailureCarriesMessage | hack_agent/mux_audio.py:380-402 | FAILED with message "boom" returns `Error: Exception - Transcoder job '<name>' failed: boom` |
| MuxAudio.Perform | hack_agent/mux_audio.py:363-402 | once the job is built, the upload has happened and the job is submitted; nothing after that is raised: a create exception comes back as text with no poll, otherwise the poll loop's specification holds; a build error is raised with no side effect |
| MuxAudio.MuxAudioAsWritten | hack_agent/mux_audio.py:150-402 | the source's entry point: bad URIs raise a ValueError with nothing uploaded, submitted or polled; each build error is raised as its own exception; a job is submitted exactly when the source's builder succeeds, and then it is the built job under the built parent, the upload is the builder's, and the driver's answer is returned |
| MuxAudio.AsWrittenSubmittedJobWellFormedIffCaption | hack_agent/mux_audio.py:350-365 | the job the source submits is well formed exactly when there is a caption |
| MuxAudio.EntryPointsOnEmptyRange | hack_agent/mux_audio.py:221-233 | for a caption with end ≤ 0, the source uploads the range error text and submits the job, while the corrected entry point raises the range ValueError and does nothing else |
| MuxAudio.MuxAudio | hack_agent/mux_audio.py:150-402 | the corrected entry point (both fixes under "Findings"): the same contract as the source's, stated over the corrected builder |
| MuxAudio.ReturnedTextClassifies | hack_agent/mux_audio.py:376-402 | for the corrected entry point, whose driver part is the source's: a returned string is the `gs://<bucket>/muxed/<hex>.mp4` location exactly when the job succeeded; otherwise it is an `Error: ` text, never both |
| MuxAudio.SubmittedJobWellFormed | hack_agent/mux_audio.py:211-365 | every job the corrected entry point submits is well formed; a caption is uploaded exactly when one was given, and the job's text input reads that object |

## Findings

| source | as written | input that shows it | evidently intended | confidence | as-written member | corrected member |
|---|---|---|---|---|---|---|
| hack_agent/mux_audio.py:350-360 | the manifest lists `sd-hls-fmp4`, `audio-hls-fmp4` and `text-vtt-en` whatever the caption | `text_stream_content = ""`: the manifest names `text-vtt-en`, but the job has no mux stream with that key | the manifest lists only the mux streams the job declares | medium, not executed | JobSpecProperties.AsWrittenWellFormedIffCaption | JobSpecProperties.BuildJobWellFormed |
| hack_agent/mux_audio.py:386 | the waiting branch tests membership in a tuple that names `Job.ProcessingState.UNSPECIFIED`, and the tuple is built before the test, for every response that is neither SUCCEEDED nor FAILED; the Transcoder client's published enum calls that value `PROCESSING_STATE_UNSPECIFIED` | a job answering RUNNING, RUNNING, SUCCEEDED: building the tuple at the first RUNNING raises `AttributeError` inside the `try`, and the call returns `Error: AttributeError - …` after one poll | PENDING, RUNNING and the unspecified state keep polling | low: rests on the client library's enum, which is not part of this model; not executed | Poll.AsWrittenNeverWaits | Poll.WaitingStatesOnlyDelay |
| hack_agent/mux_audio.py:221-233 | the value `string_to_webvtt` returns is uploaded as the subtitle file without checking it | `end_time_offset = 0`, `text_stream_content = "hi"`: the uploaded file is `Error: End time must be after start time.` and the job is built around it | an empty or reversed caption range is rejected before anything is uploaded, like the other input errors | medium, not executed | JobSpecProperties.AsWrittenUploadsErrorText | JobSpecProperties.BuildJobUploadsCaption |

The source's entry point is `MuxAudio.MuxAudioAsWritten`, over `JobSpec.BuildJobAsWritten`. The corrected entry point `MuxAudio.MuxAudio` uses the corrected builder `JobSpec.BuildJob`; `MuxAudio.EntryPointsOnEmptyRange` and `MuxAudio.AsWrittenSubmittedJobWellFormedIffCaption` show where the two differ.
`JobSpecProperties.BuildersAgree` shows that the correction changes nothing
else. In the corrected builder, a caption over an empty range raises a
`ValueError` carrying the range message.

One more observation, not claimed as a finding because the intended value is
unclear: the success location `gs://<bucket>/muxed/<hex>.mp4` names a file
that the job description never produces. The MP4 mux stream that would write
it is commented out (lines 304-311). The job writes `manifest.m3u8` and its
segments under `muxed/`. The model returns the location as the source does.

## Left out

- `get_mp3_audio_duration_gcs` (lines 22-101): downloading from Cloud Storage, temp-file handling and TinyTag decoding are all I/O or foreign libraries.
- Floating point: all times are integer milliseconds. IEEE rounding of `seconds * 1000 % 1000` and of `(end - int(end)) * 1e9` is not reproduced.
- JobSpecProperties.BuildJobMuxes: the text mux stream's segment duration is the end offset in milliseconds. The source passes the float offset to the integer `seconds` field of a protobuf `Duration` (lines 337-339), and that conversion is not modelled.
- JobSpecProperties.JobMuxes: the same holds for the job of any request. Python protobuf rejects a float assigned to an integer field with `TypeError`. Line 337 runs after the caption upload (line 233) and outside any `try`. So, with a caption and a float offset, the source uploads the caption file and then raises `TypeError` without submitting. JobSpec.BuildJobAsWritten and MuxAudio.MuxAudioAsWritten do not model this raise: they treat the offset as the integer the field expects and build and submit the job.
- Poll.PollResponses: the source's `while True` never ends on a backend that keeps waiting. The model stops when the response script runs out and reports `StillPolling`. The source has no timeout or retry limit.
- Poll.PollResponses: the text of the `ValueError` that `Job.ProcessingState(response.state)` raises for a code outside the enum comes from the enum library. The model carries it with the state instead of spelling it out.
- Poll.PollResponses: the intended loop, which both entry points use, takes `Job.ProcessingState.UNSPECIFIED` (line 386) to name the enum's unspecified state. The enum is defined in the Transcoder client library, which is not part of this model. If the enum has no such member, the source returns `Error: AttributeError - …` at the first PENDING, RUNNING or unspecified response and never waits (see "Findings" and `Poll.PollResponsesAsWritten`). Then Poll.WaitingStatesOnlyDelay, Poll.SucceedsOnThirdPoll, MuxAudio.MuxAudioAsWritten and MuxAudio.ReturnedTextClassifies describe the intended loop, not the source. Under either reading, the source's "unexpected state" branch (lines 393-394) cannot be reached.
- `asyncio.sleep(15)` and every `print`: timing and logging only.
- Poll.PollResponses: for a RUNNING response, the source reads `response.progress` and formats `response.progress.processed` with `:.1%` (lines 388-390), inside the `try`. The model assumes these reads and the formatting succeed. If they raised, the source would return `Error: <class> - <message>` at that poll. Whether they can raise depends on the Transcoder client library's `Job` type, which is not part of this model.
- Constructing `TranscoderServiceAsyncClient()` and `storage.Client()`: a failure to construct the storage client counts as an upload failure. A failure to construct the transcoder client is not modelled.
- `uuid.uuid4()`, `os.getenv` and `google.auth.default()` are parameters. An unset variable takes the source's default; a variable set to the empty string stays empty.
- An exception's `str(e)` is modelled as its message. A job's `error` field is modelled as an optional message: it is unset (falsy) or carries a message.
- The `endswith('/')` repair (lines 198-199) never fires, because the base always ends in `/muxed/`. No branch is modelled for it.
- `hack_agent/agent.py` and `hack_agent/google_agent.py` are not part of this model. They hold agent persona and prompt configuration and a constant calendar payload, with no logic.

=== FILE: common.dfy ===
/** Small shared vocabulary: optional values, results, raised exceptions and
    string prefixes. */
module Common {

  /** A value that may be absent (an unset environment variable, an unset
      error field on a backend response). */
  datatype Option<+T> = None | Some(value: T)

  /** The outcome of a step that either produces a value or fails. */
  datatype Result<+T, +E> = Ok(value: T) | Err(error: E)

  /** A raised exception, reduced to what the program reports of it:
      the name of its class and its message text. */
  datatype Exc = Exc(typeName: string, message: string)

  predicate StartsWith(s: string, prefix: string) {
    |prefix| <= |s| && s[..|prefix|] == prefix
  }

  /** The text the muxing entry point returns for an exception it caught:
      `Error: <class name> - <message>`. */
  function ExceptionText(e: Exc): (r: string)
    ensures StartsWith(r, "Error: ")
    ensures r[|"Error: "|..] == e.typeName + " - " + e.message
  {
    "Error: " + e.typeName + " - " + e.message
  }

  /** Two strings whose first characters differ cannot share a prefix that
      starts with either of those characters. */
  lemma DistinctFirstChar(s: string, p: string, q: string)
    requires StartsWith(s, p) && |p| > 0 && |q| > 0 && p[0] != q[0]
    ensures !StartsWith(s, q)
  {
    assert s[0] == p[0];
  }
}

=== FILE: decimal.dfy ===
/** Decimal rendering of natural numbers with zero padding, as Python's
    `f"{n:0W}"` format does for a non-negative integer, together with the
    inverse reading of a digit string. */
module Decimal {

  predicate IsDigit(c: char) {
    '0' <= c <= '9'
  }

  predicate AllDigits(s: string) {
    forall i :: 0 <= i < |s| ==> IsDigit(s[i])
  }

  function DigitValue(c: char): (d: nat)
    requires IsDigit(c)
    ensures d < 10
  {
    c as int - '0' as int
  }

  function DigitChar(d: nat): (c: char)
    requires d < 10
    ensures IsDigit(c) && DigitValue(c) == d
  {
    ('0' as int + d) as char
  }

  function Pow10(k: nat): (p: nat)
    ensures p >= 1
  {
    if k == 0 then 1 else 10 * Pow10(k - 1)
  }

  /** The shortest decimal spelling of `n` (no leading zeros; "0" for zero). */
  function Digits(n: nat): (s: string)
    ensures |s| >= 1 && AllDigits(s)
    ensures n < 10 <==> |s| == 1
  {
    if n < 10 then [DigitChar(n)] else Digits(n / 10) + [DigitChar(n % 10)]
  }

  /** The number a digit string denotes (leading zeros are harmless). */
  function Value(s: string): nat
    requires AllDigits(s)
  {
    if |s| == 0 then 0 else Value(s[..|s| - 1]) * 10 + DigitValue(s[|s| - 1])
  }

  function Zeros(k: nat): (s: string)
    ensures |s| == k && AllDigits(s)
    ensures forall i :: 0 <= i < k ==> s[i] == '0'
  {
    if k == 0 then [] else Zeros(k - 1) + ['0']
  }

  /** `n` in decimal, left-padded with zeros to at least `width` characters;
      a number needing more digits than `width` is written in full, never cut. */
  function Pad(n: nat, width: nat): (s: string)
    ensures AllDigits(s)
    ensures |s| == if |Digits(n)| < width then width else |Digits(n)|
    ensures Value(s) == n
  {
    var d := Digits(n);
    var z := if |d| < width then Zeros(width - |d|) else [];
    ValueOfDigits(n);
    ValueLeadingZeros(|z|, d);
    assert z == Zeros(|z|);
    z + d
  }

  /** Reading back the decimal spelling of `n` gives `n`. */
  lemma {:induction false} ValueOfDigits(n: nat)
    ensures Value(Digits(n)) == n
  {
    var s := Digits(n);
    if n < 10 {
      assert s[..0] == [];
    } else {
      var head := Digits(n / 10);
      assert s == head + [DigitChar(n % 10)];
      assert s[..|s| - 1] == head;
      ValueOfDigits(n / 10);
    }
  }

  /** Leading zeros do not change the value of a digit string. */
  lemma {:induction false} ValueLeadingZeros(k: nat, s: string)
    requires AllDigits(s)
    ensures AllDigits(Zeros(k) + s)
    ensures Value(Zeros(k) + s) == Value(s)
    decreases |s|
  {
    var t := Zeros(k) + s;
    assert AllDigits(t) by {
      forall i | 0 <= i < |t| ensures IsDigit(t[i]) {
        if i < k { assert t[i] == Zeros(k)[i]; } else { assert t[i] == s[i - k]; }
      }
    }
    if |s| == 0 {
      assert t == Zeros(k);
      ValueOfZeros(k);
    } else {
      var init := s[..|s| - 1];
      assert t[..|t| - 1] == Zeros(k) + init;
      assert t[|t| - 1] == s[|s| - 1];
      ValueLeadingZeros(k, init);
    }
  }

  lemma {:induction false} ValueOfZeros(k: nat)
    ensures Value(Zeros(k)) == 0
  {
    if k > 0 {
      assert Zeros(k)[..k - 1] == Zeros(k - 1);
      ValueOfZeros(k - 1);
    }
  }

  /** A number below 10^k needs at most k digits (k >= 1). */
  lemma {:induction false} DigitsLengthBound(n: nat, k: nat)
    requires k >= 1 && n < Pow10(k)
    ensures |Digits(n)| <= k
  {
    if n >= 10 {
      DigitsLengthBound(n / 10, k - 1);
    }
  }

  /** Padding a number below 10^w to width w yields exactly w characters. */
  lemma PadExactWidth(n: nat, w: nat)
    requires w >= 1 && n < Pow10(w)
    ensures |Pad(n, w)| == w
  {
    DigitsLengthBound(n, w);
  }
}

=== FILE: job_spec.dfy ===
/** The declarative part of `mux_audio` in `hack_agent/mux_audio.py`: input
    validation, project resolution, the optional caption upload, and the
    transcoding job description (inputs, one edit atom, elementary streams,
    mux streams, one HLS manifest, a retention time).

    The environment (bucket and location variables, the credentials lookup,
    the two generated uuid hex strings and the upload's outcome) is passed in
    as a parameter. Offsets are integer milliseconds. */
module JobSpec {
  import opened Common
  import opened WebVtt

  const VideoInputKey: string := "video_input_key"
  const AudioInputKey: string := "audio_input_key"
  const TextInputKey: string := "text_input_key"
  const AtomKey: string := "atom_part_0"
  const VideoStreamKey: string := "output_video_stream"
  const AudioStreamKey: string := "output_audio_stream"
  const TextStreamKey: string := "output_text_stream"
  const VideoMuxKey: string := "sd-hls-fmp4"
  const AudioMuxKey: string := "audio-hls-fmp4"
  const TextMuxKey: string := "text-vtt-en"
  const ManifestFileName: string := "manifest.m3u8"
  const TtlDays: nat := 1
  const GsScheme: string := "gs://"
  const DefaultBucket: string := "byron-alpha-vpagent"
  const DefaultLocation: string := "us-central1"
  const ProjectErrorPrefix: string := "Failed to infer Google Cloud Project ID: "
  const NoProjectId: string := "Could not infer Google Cloud Project ID."

  /** Fixed encoder settings of the video and audio streams. */
  const VideoSettings: StreamSettings := H264(720, 1280, 5000000, 30)
  const AudioSettings: StreamSettings := AudioCodec("aac", 128000)

  /** A protobuf `Duration`: whole seconds plus nanoseconds. */
  datatype Duration = Duration(seconds: int, nanos: int)

  datatype Input = Input(key: string, uri: string)

  datatype EditAtom = EditAtom(key: string, inputs: seq<string>, startOffset: Duration, endOffset: Duration)

  datatype TextMapping = TextMapping(atomKey: string, inputKey: string)

  datatype StreamSettings =
    | H264(heightPixels: nat, widthPixels: nat, bitrateBps: nat, frameRate: nat)
    | AudioCodec(codec: string, bitrateBps: nat)
    | TextCodec(codec: string, languageCode: string, displayName: string, mapping: seq<TextMapping>)

  datatype ElementaryStream = ElementaryStream(key: string, settings: StreamSettings)

  datatype SegmentSettings = SegmentSettings(segmentDurationMs: int, individualSegments: bool)

  datatype MuxStream = MuxStream(key: string, container: string, elementaryStreams: seq<string>, segment: Option<SegmentSettings>)

  datatype Manifest = Manifest(fileName: string, kind: string, muxStreams: seq<string>)

  datatype JobConfig = JobConfig(
    inputs: seq<Input>,
    editList: seq<EditAtom>,
    elementaryStreams: seq<ElementaryStream>,
    muxStreams: seq<MuxStream>,
    manifests: seq<Manifest>)

  datatype Job = Job(outputUri: string, config: JobConfig, ttlAfterCompletionDays: nat)

  /** What the caller asks for: two object URIs, the end of the output
      timeline, and the caption text ("" for none). */
  datatype MuxRequest = MuxRequest(videoUri: string, audioUri: string, endMs: int, caption: string)

  /** What `google.auth.default()` gives back: a project id (possibly empty)
      or an exception. */
  datatype AuthResult = Resolved(projectId: string) | AuthRaised(exc: Exc)

  /** The ambient inputs of `mux_audio`: the two environment variables (None
      when unset), the credentials lookup, the hex of the two `uuid4()` calls
      (output file first, subtitle file second) and, when a caption is
      uploaded, the exception the upload raised if any. */
  datatype Environment = Environment(
    bucketVar: Option<string>,
    locationVar: Option<string>,
    auth: AuthResult,
    outputHex: string,
    subtitleHex: string,
    uploadFailure: Option<Exc>)

  /** The subtitle object written to the bucket before the job is built. */
  datatype CaptionUpload = CaptionUpload(bucket: string, objectName: string, content: string, contentType: string)

  /** Everything the builder hands to the driver: the `CreateJob` parent,
      the job, the location the driver reports on success, and the caption
      upload it performed. */
  datatype Built = Built(parent: string, job: Job, finalOutputUri: string, upload: Option<CaptionUpload>)

  /** Why `mux_audio` raises before submitting anything. */
  datatype BuildError =
    | MissingUri
    | InvalidVideoUri(uri: string)
    | InvalidAudioUri(uri: string)
    | ProjectUnresolved(reason: string)
    | CaptionRangeInvalid
    | UploadRaised(exc: Exc)

  /** The exception each build error surfaces as. */
  function RaisedBy(e: BuildError): (x: Exc)
    ensures !e.UploadRaised? ==> x.typeName == "ValueError"
    ensures e.UploadRaised? ==> x == e.exc
    ensures e.ProjectUnresolved? ==> x.message == ProjectErrorPrefix + e.reason
    ensures e == CaptionRangeInvalid ==> x.message == RangeMessage
  {
    match e
    case MissingUri => Exc("ValueError", "Both 'video_uri' and 'audio_uri' must be provided.")
    case InvalidVideoUri(u) => Exc("ValueError", "Invalid GCS video URI: " + u + ".")
    case InvalidAudioUri(u) => Exc("ValueError", "Invalid GCS audio URI: " + u + ".")
    case ProjectUnresolved(reason) => Exc("ValueError", ProjectErrorPrefix + reason)
    case CaptionRangeInvalid => Exc("ValueError", RangeMessage)
    case UploadRaised(x) => x
  }

  function Bucket(env: Environment): string {
    match env.bucketVar
    case Some(b) => b
    case None => DefaultBucket
  }

  function Location(env: Environment): string {
    match env.locationVar
    case Some(l) => l
    case None => DefaultLocation
  }

  function OutputBase(bucket: string): string {
    GsScheme + bucket + "/muxed/"
  }

  /** The location reported on success: a fresh `.mp4` name under the output
      prefix. */
  function FinalOutputUri(bucket: string, hex: string): (u: string)
    ensures StartsWith(u, OutputBase(bucket))
    ensures u[|OutputBase(bucket)|..] == hex + ".mp4"
  {
    var u := OutputBase(bucket) + hex + ".mp4";
    assert u[..|OutputBase(bucket)|] == OutputBase(bucket);
    assert u[|OutputBase(bucket)|..] == hex + ".mp4";
    u
  }

  /** Different fresh names give different output locations in the same
      bucket. */
  lemma FinalOutputUriInjective(bucket: string, h1: string, h2: string)
    ensures FinalOutputUri(bucket, h1) == FinalOutputUri(bucket, h2) ==> h1 == h2
  {
    if FinalOutputUri(bucket, h1) == FinalOutputUri(bucket, h2) {
      SameSuffixSameName(h1, h2, ".mp4");
    }
  }

  lemma SameSuffixSameName(h1: string, h2: string, suffix: string)
    requires h1 + suffix == h2 + suffix
    ensures h1 == h2
  {
    assert |h1| == |h2|;
    assert h1 == (h1 + suffix)[..|h1|];
    assert h2 == (h2 + suffix)[..|h2|];
  }

  function SubtitleObject(hex: string): string {
    "text_tracks/" + hex + ".srt"
  }

  function ObjectUri(bucket: string, objectName: string): string {
    GsScheme + bucket + "/" + objectName
  }

  function Parent(projectId: string, location: string): string {
    "projects/" + projectId + "/locations/" + location
  }

  /** The three URI checks, in the order the source makes them: a missing
      URI is reported before either prefix is looked at, and the video URI
      before the audio URI. Both URIs pass exactly when both carry the
      `gs://` scheme, which the emptiness check then never fires on. */
  function CheckUris(video: string, audio: string): (r: Option<BuildError>)
    ensures r.None? <==> StartsWith(video, GsScheme) && StartsWith(audio, GsScheme)
    ensures r == Some(MissingUri) <==> video == "" || audio == ""
    ensures r == Some(InvalidVideoUri(video)) <==> video != "" && audio != "" && !StartsWith(video, GsScheme)
    ensures r == Some(InvalidAudioUri(audio))
        <==> video != "" && audio != "" && StartsWith(video, GsScheme) && !StartsWith(audio, GsScheme)
  {
    if video == "" || audio == "" then Some(MissingUri)
    else if !StartsWith(video, GsScheme) then Some(InvalidVideoUri(video))
    else if !StartsWith(audio, GsScheme) then Some(InvalidAudioUri(audio))
    else None
  }

  /** The project id from the credentials lookup. An empty id raises inside
      the `try`, so its message is wrapped by the `except` clause like any
      exception the lookup itself raises. */
  function ResolveProject(auth: AuthResult): (r: Result<string, BuildError>)
    ensures r.Ok? <==> auth.Resolved? && auth.projectId != ""
    ensures r.Ok? ==> r.value == auth.projectId
    ensures r.Err? ==> r.error.ProjectUnresolved?
    ensures auth.AuthRaised? ==> r == Err(ProjectUnresolved(auth.exc.message))
    ensures auth == Resolved("") ==> r == Err(ProjectUnresolved(NoProjectId))
  {
    match auth
    case AuthRaised(e) => Err(ProjectUnresolved(e.message))
    case Resolved(p) =>
      if p == "" then Err(ProjectUnresolved(NoProjectId)) else Ok(p)
  }

  /** `Duration.seconds = int(offset)` and `nanos = int((offset - seconds) * 1e9)`:
      Python's `int()` truncates toward zero, so the nanoseconds carry the
      sign of the offset, stay below one second in size, and the two fields
      add back up to the offset exactly. */
  function SplitOffset(ms: int): (d: Duration)
    ensures d.seconds * 1_000_000_000 + d.nanos == ms * 1_000_000
    ensures -1_000_000_000 < d.nanos < 1_000_000_000
    ensures ms >= 0 ==> d.nanos >= 0
    ensures ms <= 0 ==> d.nanos <= 0
  {
    var s := if ms >= 0 then ms / 1000 else -((-ms) / 1000);
    Duration(s, (ms - s * 1000) * 1_000_000)
  }

  /** The keys of a list of named records, in order. */
  function KeysOf<T>(s: seq<T>, key: T -> string): (ks: seq<string>)
    ensures |ks| == |s| && forall i :: 0 <= i < |s| ==> ks[i] == key(s[i])
  {
    seq(|s|, i requires 0 <= i < |s| => key(s[i]))
  }

  function Keys(inputs: seq<Input>): seq<string> { KeysOf(inputs, (x: Input) => x.key) }

  function StreamKeys(streams: seq<ElementaryStream>): seq<string> { KeysOf(streams, (x: ElementaryStream) => x.key) }

  function MuxKeys(muxes: seq<MuxStream>): seq<string> { KeysOf(muxes, (x: MuxStream) => x.key) }

  function AtomKeys(atoms: seq<EditAtom>): seq<string> { KeysOf(atoms, (x: EditAtom) => x.key) }

  predicate Distinct(ks: seq<string>) {
    forall i, j :: 0 <= i < j < |ks| ==> ks[i] != ks[j]
  }

  /** Every name the job uses refers to something the job declares, and no
      key is declared twice: the edit atom's inputs are inputs, a text
      mapping names an edit atom and an input, a mux stream names elementary
      streams, and a manifest names mux streams. */
  predicate WellFormed(c: JobConfig) {
    && Distinct(Keys(c.inputs))
    && Distinct(StreamKeys(c.elementaryStreams))
    && Distinct(MuxKeys(c.muxStreams))
    && (forall a, k :: a in c.editList && k in a.inputs ==> k in Keys(c.inputs))
    && (forall e, m :: e in c.elementaryStreams && e.settings.TextCodec? && m in e.settings.mapping
          ==> m.atomKey in AtomKeys(c.editList) && m.inputKey in Keys(c.inputs))
    && (forall x, k :: x in c.muxStreams && k in x.elementaryStreams ==> k in StreamKeys(c.elementaryStreams))
    && (forall f, k :: f in c.manifests && k in f.muxStreams ==> k in MuxKeys(c.muxStreams))
  }

  /** How many elements of `s` satisfy `p`. */
  function Count<T>(s: seq<T>, p: T -> bool): nat {
    if |s| == 0 then 0 else (if p(s[0]) then 1 else 0) + Count(s[1..], p)
  }

  /** The input keys, in the order they are appended. */
  function InputKeyList(hasCaption: bool): seq<string> {
    [VideoInputKey, AudioInputKey] + (if hasCaption then [TextInputKey] else [])
  }

  function ConfigInputs(req: MuxRequest, bucket: string, subtitleHex: string): seq<Input> {
    [Input(VideoInputKey, req.videoUri), Input(AudioInputKey, req.audioUri)]
    + (if req.caption != "" then [Input(TextInputKey, ObjectUri(bucket, SubtitleObject(subtitleHex)))] else [])
  }

  function ConfigStreams(hasCaption: bool): seq<ElementaryStream> {
    [ElementaryStream(VideoStreamKey, VideoSettings), ElementaryStream(AudioStreamKey, AudioSettings)]
    + (if hasCaption
       then [ElementaryStream(TextStreamKey,
               TextCodec("webvtt", "en-US", "English", [TextMapping(AtomKey, TextInputKey)]))]
       else [])
  }

  function ConfigMuxes(hasCaption: bool, endMs: int): seq<MuxStream> {
    [MuxStream(VideoMuxKey, "fmp4", [VideoStreamKey], None),
     MuxStream(AudioMuxKey, "fmp4", [AudioStreamKey], None)]
    + (if hasCaption
       then [MuxStream(TextMuxKey, "vtt", [TextStreamKey], Some(SegmentSettings(endMs, true)))]
       else [])
  }

  /** The job description for a request; `manifestKeys` is the mux-stream
      list the manifest carries. */
  function JobFor(req: MuxRequest, bucket: string, subtitleHex: string, manifestKeys: seq<string>): Job {
    var hasCaption := req.caption != "";
    Job(
      OutputBase(bucket),
      JobConfig(
        ConfigInputs(req, bucket, subtitleHex),
        [EditAtom(AtomKey, InputKeyList(hasCaption), Duration(0, 0), SplitOffset(req.endMs))],
        ConfigStreams(hasCaption),
        ConfigMuxes(hasCaption, req.endMs),
        [Manifest(ManifestFileName, "HLS", manifestKeys)]),
      TtlDays)
  }

  /** The manifest list of the source: all three mux keys, caption or not. */
  const SourceManifestKeys: seq<string> := [VideoMuxKey, AudioMuxKey, TextMuxKey]

  /** The manifest list that names only mux streams the job declares. */
  function ManifestKeys(hasCaption: bool): seq<string> {
    [VideoMuxKey, AudioMuxKey] + (if hasCaption then [TextMuxKey] else [])
  }

  /** The caption upload for a request with a caption: the subtitle document
      over [0, end] (or, as the source has it, whatever `string_to_webvtt`
      returned) stored as plain text. */
  function UploadFor(req: MuxRequest, bucket: string, subtitleHex: string): Option<CaptionUpload> {
    if req.caption == "" then None
    else Some(CaptionUpload(bucket, SubtitleObject(subtitleHex), StringToWebVtt(req.caption, 0, req.endMs), "text/plain"))
  }

  /** What a successful build hands on, for a resolved project. */
  function Assemble(req: MuxRequest, env: Environment, project: string, manifestKeys: seq<string>): Built {
    var bucket := Bucket(env);
    Built(
      Parent(project, Location(env)),
      JobFor(req, bucket, env.subtitleHex, manifestKeys),
      FinalOutputUri(bucket, env.outputHex),
      UploadFor(req, bucket, env.subtitleHex))
  }

  /** The job builder exactly as the source writes it: no range check on the
      caption, and a manifest naming all three mux streams. */
  function BuildJobAsWritten(req: MuxRequest, env: Environment): (r: Result<Built, BuildError>)
    ensures CheckUris(req.videoUri, req.audioUri).Some? ==> r == Err(CheckUris(req.videoUri, req.audioUri).value)
    ensures r.Ok? <==> && CheckUris(req.videoUri, req.audioUri).None?
                       && ResolveProject(env.auth).Ok?
                       && (req.caption != "" ==> env.uploadFailure.None?)
    ensures CheckUris(req.videoUri, req.audioUri).None? && ResolveProject(env.auth).Err?
            ==> r == Err(ResolveProject(env.auth).error)
    ensures CheckUris(req.videoUri, req.audioUri).None? && ResolveProject(env.auth).Ok?
            && req.caption != "" && env.uploadFailure.Some?
            ==> r == Err(UploadRaised(env.uploadFailure.value))
    ensures r.Ok? ==> r.value.job.config.manifests == [Manifest(ManifestFileName, "HLS", SourceManifestKeys)]
    ensures r.Ok? ==> r.value == Assemble(req, env, env.auth.projectId, SourceManifestKeys)
  {
    match CheckUris(req.videoUri, req.audioUri)
    case Some(e) => Err(e)
    case None =>
      match ResolveProject(env.auth)
      case Err(e) => Err(e)
      case Ok(project) =>
        if req.caption != "" && env.uploadFailure.Some? then Err(UploadRaised(env.uploadFailure.value))
        else Ok(Assemble(req, env, project, SourceManifestKeys))
  }

  /** The job builder with both corrections applied: a caption whose range
      `string_to_webvtt` rejects fails the build before anything is
      uploaded, and the manifest names only the mux streams the job has.
      Input validation still comes first, then the project lookup, then the
      upload. */
  function BuildJob(req: MuxRequest, env: Environment): (r: Result<Built, BuildError>)
    ensures CheckUris(req.videoUri, req.audioUri).Some? ==> r == Err(CheckUris(req.videoUri, req.audioUri).value)
    ensures CheckUris(req.videoUri, req.audioUri).None? && req.caption != "" && req.endMs <= 0
            ==> r == Err(CaptionRangeInvalid)
    ensures r.Ok? <==> && CheckUris(req.videoUri, req.audioUri).None?
                       && ResolveProject(env.auth).Ok?
                       && (req.caption != "" ==> req.endMs > 0 && env.uploadFailure.None?)
    ensures CheckUris(req.videoUri, req.audioUri).None? && !(req.caption != "" && req.endMs <= 0)
            && ResolveProject(env.auth).Err?
            ==> r == Err(ResolveProject(env.auth).error)
    ensures CheckUris(req.videoUri, req.audioUri).None? && !(req.caption != "" && req.endMs <= 0)
            && ResolveProject(env.auth).Ok? && req.caption != "" && env.uploadFailure.Some?
            ==> r == Err(UploadRaised(env.uploadFailure.value))
    ensures r.Ok? ==> && r.value.parent == Parent(env.auth.projectId, Location(env))
                      && r.value.finalOutputUri == FinalOutputUri(Bucket(env), env.outputHex)
                      && (r.value.upload.Some? <==> req.caption != "")
                      && r.value == Assemble(req, env, env.auth.projectId, ManifestKeys(req.caption != ""))
  {
    match CheckUris(req.videoUri, req.audioUri)
    case Some(e) => Err(e)
    case None =>
      if req.caption != "" && req.endMs <= 0 then Err(CaptionRangeInvalid)
      else
        match ResolveProject(env.auth)
        case Err(e) => Err(e)
        case Ok(project) =>
          if req.caption != "" && env.uploadFailure.Some? then Err(UploadRaised(env.uploadFailure.value))
          else Ok(Assemble(req, env, project, ManifestKeys(req.caption != "")))
  }
}

=== FILE: job_spec_properties.dfy ===
/** What the job builder guarantees about the job it returns, and how the
    corrected builder relates to the builder as the source writes it. */
module JobSpecProperties {
  import opened Common
  import opened WebVtt
  import opened JobSpec

  predicate IsVideo(e: ElementaryStream) { e.settings.H264? }
  predicate IsAudio(e: ElementaryStream) { e.settings.AudioCodec? }
  predicate IsText(e: ElementaryStream) { e.settings.TextCodec? }

  /** The corrected builder's result, spelled out. */
  lemma BuildJobShape(req: MuxRequest, env: Environment)
    requires BuildJob(req, env).Ok?
    ensures BuildJob(req, env).value
         == Built(Parent(env.auth.projectId, Location(env)),
                  JobFor(req, Bucket(env), env.subtitleHex, ManifestKeys(req.caption != "")),
                  FinalOutputUri(Bucket(env), env.outputHex),
                  UploadFor(req, Bucket(env), env.subtitleHex))
  {
  }

  /** The source's builder's result, spelled out. */
  lemma AsWrittenShape(req: MuxRequest, env: Environment)
    requires BuildJobAsWritten(req, env).Ok?
    ensures BuildJobAsWritten(req, env).value
         == Built(Parent(env.auth.projectId, Location(env)),
                  JobFor(req, Bucket(env), env.subtitleHex, SourceManifestKeys),
                  FinalOutputUri(Bucket(env), env.outputHex),
                  UploadFor(req, Bucket(env), env.subtitleHex))
  {
  }

  lemma InputKeysInOrder(req: MuxRequest, bucket: string, hex: string)
    ensures Keys(ConfigInputs(req, bucket, hex)) == InputKeyList(req.caption != "")
  {
    var keys := Keys(ConfigInputs(req, bucket, hex));
    if req.caption != "" {
      assert keys == [keys[0], keys[1], keys[2]];
    } else {
      assert keys == [keys[0], keys[1]];
    }
  }

  lemma StreamKeysInOrder(hasCaption: bool)
    ensures StreamKeys(ConfigStreams(hasCaption))
         == [VideoStreamKey, AudioStreamKey] + (if hasCaption then [TextStreamKey] else [])
  {
    var keys := StreamKeys(ConfigStreams(hasCaption));
    if hasCaption {
      assert keys == [keys[0], keys[1], keys[2]];
    } else {
      assert keys == [keys[0], keys[1]];
    }
  }

  lemma MuxKeysInOrder(hasCaption: bool, endMs: int)
    ensures MuxKeys(ConfigMuxes(hasCaption, endMs)) == ManifestKeys(hasCaption)
  {
    var keys := MuxKeys(ConfigMuxes(hasCaption, endMs));
    if hasCaption {
      assert keys == [keys[0], keys[1], keys[2]];
    } else {
      assert keys == [keys[0], keys[1]];
    }
  }

  /** Inputs and the edit atom of the job for any request and manifest
      list, so of the job either builder returns: the video and audio
      inputs, then the caption input exactly when there is a caption,
      reading the subtitle object; one edit atom `atom_part_0` listing
      exactly those keys in the same order, spanning from zero to the
      requested end, whatever its sign. */
  lemma JobInputs(req: MuxRequest, bucket: string, hex: string, manifestKeys: seq<string>)
    ensures var c := JobFor(req, bucket, hex, manifestKeys).config;
      && Keys(c.inputs) == [VideoInputKey, AudioInputKey] + (if req.caption != "" then [TextInputKey] else [])
      && c.inputs[0].uri == req.videoUri && c.inputs[1].uri == req.audioUri
      && (req.caption != "" ==> c.inputs[2].uri == ObjectUri(bucket, SubtitleObject(hex)))
      && |c.editList| == 1
      && c.editList[0].key == AtomKey
      && c.editList[0].inputs == Keys(c.inputs)
      && c.editList[0].startOffset == Duration(0, 0)
      && c.editList[0].endOffset.seconds * 1_000_000_000 + c.editList[0].endOffset.nanos == req.endMs * 1_000_000
  {
    InputKeysInOrder(req, bucket, hex);
  }

  /** The corrected builder's inputs; the caption input reads the object
      the builder uploaded. */
  lemma BuildJobInputs(req: MuxRequest, env: Environment)
    requires BuildJob(req, env).Ok?
    ensures var b := BuildJob(req, env).value; var c := b.job.config;
      && Keys(c.inputs) == [VideoInputKey, AudioInputKey] + (if req.caption != "" then [TextInputKey] else [])
      && c.inputs[0].uri == req.videoUri && c.inputs[1].uri == req.audioUri
      && (req.caption != "" ==> c.inputs[2].uri == ObjectUri(b.upload.value.bucket, b.upload.value.objectName))
      && |c.editList| == 1
      && c.editList[0].key == AtomKey
      && c.editList[0].inputs == Keys(c.inputs)
      && c.editList[0].startOffset == Duration(0, 0)
      && c.editList[0].endOffset.seconds * 1_000_000_000 + c.editList[0].endOffset.nanos == req.endMs * 1_000_000
  {
    BuildJobShape(req, env);
    JobInputs(req, Bucket(env), env.subtitleHex, ManifestKeys(req.caption != ""));
  }

  /** Elementary streams of the job for any request and manifest list:
      exactly one video stream (H.264, 1280x720, 5,000,000 bps, 30 fps) and
      exactly one audio stream (aac, 128,000 bps); a text stream exists
      exactly when a caption was given, and it maps the edit atom onto the
      caption input. */
  lemma JobStreams(req: MuxRequest, bucket: string, hex: string, manifestKeys: seq<string>)
    ensures var s := JobFor(req, bucket, hex, manifestKeys).config.elementaryStreams;
      && Count(s, IsVideo) == 1 && Count(s, IsAudio) == 1
      && (forall e :: e in s && IsVideo(e) ==> e.settings == H264(720, 1280, 5000000, 30))
      && (forall e :: e in s && IsAudio(e) ==> e.settings == AudioCodec("aac", 128000))
      && ((exists e :: e in s && IsText(e)) <==> req.caption != "")
      && (forall e :: e in s && IsText(e) ==> e.settings.mapping == [TextMapping(AtomKey, TextInputKey)])
  {
    StreamsShape(req.caption != "");
  }

  /** The corrected builder's elementary streams. */
  lemma BuildJobStreams(req: MuxRequest, env: Environment)
    requires BuildJob(req, env).Ok?
    ensures var s := BuildJob(req, env).value.job.config.elementaryStreams;
      && Count(s, IsVideo) == 1 && Count(s, IsAudio) == 1
      && (forall e :: e in s && IsVideo(e) ==> e.settings == H264(720, 1280, 5000000, 30))
      && (forall e :: e in s && IsAudio(e) ==> e.settings == AudioCodec("aac", 128000))
      && ((exists e :: e in s && IsText(e)) <==> req.caption != "")
      && (forall e :: e in s && IsText(e) ==> e.settings.mapping == [TextMapping(AtomKey, TextInputKey)])
  {
    BuildJobShape(req, env);
    StreamsShape(req.caption != "");
  }

  lemma StreamsShape(hasCaption: bool)
    ensures var s := ConfigStreams(hasCaption);
      && Count(s, IsVideo) == 1 && Count(s, IsAudio) == 1
      && (forall e :: e in s && IsVideo(e) ==> e.settings == H264(720, 1280, 5000000, 30))
      && (forall e :: e in s && IsAudio(e) ==> e.settings == AudioCodec("aac", 128000))
      && ((exists e :: e in s && IsText(e)) <==> hasCaption)
      && (forall e :: e in s && IsText(e) ==> e.settings.mapping == [TextMapping(AtomKey, TextInputKey)])
  {
    var s := ConfigStreams(hasCaption);
    if hasCaption {
      var tail := s[1..][1..];
      assert tail == [s[2]] && tail[1..] == [];
      assert !IsVideo(s[2]) && !IsAudio(s[2]);
      assert Count(tail[1..], IsVideo) == 0 && Count(tail[1..], IsAudio) == 0;
      assert Count(tail, IsVideo) == 0;
      assert Count(tail, IsAudio) == 0;
      assert Count(s[1..], IsVideo) == 0 && Count(s[1..], IsAudio) == 1;
      assert s[2] in s && IsText(s[2]);
    } else {
      assert s[1..][1..] == [];
      assert Count(s[1..], IsVideo) == 0 && Count(s[1..], IsAudio) == 1;
    }
  }

  /** Mux streams of the job for any request and manifest list:
      `sd-hls-fmp4` and `audio-hls-fmp4` as fragmented MP4, plus
      `text-vtt-en` exactly when a caption was given, whose segment duration
      is the end offset, whatever its sign; one HLS manifest `manifest.m3u8`
      naming the given list; output under the `muxed/` prefix; kept for one
      day. */
  lemma JobMuxes(req: MuxRequest, bucket: string, hex: string, manifestKeys: seq<string>)
    ensures var j := JobFor(req, bucket, hex, manifestKeys); var c := j.config;
      && MuxKeys(c.muxStreams) == [VideoMuxKey, AudioMuxKey] + (if req.caption != "" then [TextMuxKey] else [])
      && c.muxStreams[0].elementaryStreams == [VideoStreamKey] && c.muxStreams[0].container == "fmp4"
      && c.muxStreams[1].elementaryStreams == [AudioStreamKey] && c.muxStreams[1].container == "fmp4"
      && (req.caption != "" ==>
            && c.muxStreams[2].segment == Some(SegmentSettings(req.endMs, true))
            && c.muxStreams[2].elementaryStreams == [TextStreamKey]
            && c.muxStreams[2].container == "vtt")
      && |c.manifests| == 1 && c.manifests[0].fileName == "manifest.m3u8" && c.manifests[0].kind == "HLS"
      && c.manifests[0].muxStreams == manifestKeys
      && j.outputUri == "gs://" + bucket + "/muxed/"
      && j.ttlAfterCompletionDays == 1
  {
    MuxKeysInOrder(req.caption != "", req.endMs);
  }

  /** The corrected builder's mux streams; its manifest names exactly
      those mux streams. */
  lemma BuildJobMuxes(req: MuxRequest, env: Environment)
    requires BuildJob(req, env).Ok?
    ensures var j := BuildJob(req, env).value.job; var c := j.config;
      && MuxKeys(c.muxStreams) == [VideoMuxKey, AudioMuxKey] + (if req.caption != "" then [TextMuxKey] else [])
      && c.muxStreams[0].elementaryStreams == [VideoStreamKey] && c.muxStreams[0].container == "fmp4"
      && c.muxStreams[1].elementaryStreams == [AudioStreamKey] && c.muxStreams[1].container == "fmp4"
      && (req.caption != "" ==>
            && c.muxStreams[2].segment == Some(SegmentSettings(req.endMs, true))
            && c.muxStreams[2].elementaryStreams == [TextStreamKey])
      && |c.manifests| == 1 && c.manifests[0].fileName == "manifest.m3u8" && c.manifests[0].kind == "HLS"
      && c.manifests[0].muxStreams == MuxKeys(c.muxStreams)
      && j.outputUri == "gs://" + Bucket(env) + "/muxed/"
      && j.ttlAfterCompletionDays == 1
  {
    BuildJobShape(req, env);
    MuxKeysInOrder(req.caption != "", req.endMs);
  }

  /** Whether the job for a request, with a given manifest list, is closed
      under its own names: it is exactly when every manifest entry names one
      of its mux streams. */
  lemma JobWellFormedIff(req: MuxRequest, bucket: string, hex: string, manifestKeys: seq<string>)
    ensures WellFormed(JobFor(req, bucket, hex, manifestKeys).config)
        <==> forall k :: k in manifestKeys ==> k in ManifestKeys(req.caption != "")
  {
    var hasCaption := req.caption != "";
    var c := JobFor(req, bucket, hex, manifestKeys).config;
    InputKeysInOrder(req, bucket, hex);
    StreamKeysInOrder(hasCaption);
    MuxKeysInOrder(hasCaption, req.endMs);
    assert AtomKeys(c.editList) == [AtomKey];
    assert c.manifests == [Manifest(ManifestFileName, "HLS", manifestKeys)];
  }

  /** The job configuration of the corrected builder is closed: every name
      in it refers to something it declares. */
  lemma BuildJobWellFormed(req: MuxRequest, env: Environment)
    requires BuildJob(req, env).Ok?
    ensures WellFormed(BuildJob(req, env).value.job.config)
  {
    BuildJobShape(req, env);
    JobWellFormedIff(req, Bucket(env), env.subtitleHex, ManifestKeys(req.caption != ""));
  }

  /** The builder as written declares a well-formed job exactly when a
      caption was given: without one its manifest names `text-vtt-en`, a mux
      stream the job does not have. */
  lemma AsWrittenWellFormedIffCaption(req: MuxRequest, env: Environment)
    requires BuildJobAsWritten(req, env).Ok?
    ensures var c := BuildJobAsWritten(req, env).value.job.config;
      && (WellFormed(c) <==> req.caption != "")
      && (req.caption == "" ==> TextMuxKey in c.manifests[0].muxStreams && TextMuxKey !in MuxKeys(c.muxStreams))
  {
    AsWrittenShape(req, env);
    var hasCaption := req.caption != "";
    JobWellFormedIff(req, Bucket(env), env.subtitleHex, SourceManifestKeys);
    MuxKeysInOrder(hasCaption, req.endMs);
    if !hasCaption {
      assert TextMuxKey in SourceManifestKeys;
      assert TextMuxKey !in ManifestKeys(false);
    }
  }

  /** The caption file the source uploads for a caption over an empty or
      reversed range is `string_to_webvtt`'s error text, not a WebVTT
      document, and the job is still built around it. */
  lemma AsWrittenUploadsErrorText(req: MuxRequest, env: Environment)
    requires CheckUris(req.videoUri, req.audioUri).None? && ResolveProject(env.auth).Ok?
    requires req.caption != "" && env.uploadFailure.None? && req.endMs <= 0
    ensures BuildJobAsWritten(req, env).Ok?
    ensures BuildJobAsWritten(req, env).value.upload.Some?
    ensures BuildJobAsWritten(req, env).value.upload.value.content == RangeError
    ensures ParseWebVtt(BuildJobAsWritten(req, env).value.upload.value.content).None?
  {
    AsWrittenShape(req, env);
    assert RangeError[..|Header|] != Header by {
      assert RangeError[0] != Header[0];
    }
  }

  /** The corrected builder uploads a caption exactly when one was given,
      and what it uploads is a WebVTT document whose single cue runs from
      zero to the end offset and carries the caption text unchanged. */
  lemma BuildJobUploadsCaption(req: MuxRequest, env: Environment)
    requires BuildJob(req, env).Ok?
    ensures var u := BuildJob(req, env).value.upload;
      && (u.Some? <==> req.caption != "")
      && (u.Some? ==> && u.value.bucket == Bucket(env)
                      && u.value.objectName == SubtitleObject(env.subtitleHex)
                      && u.value.contentType == "text/plain"
                      && ParseWebVtt(u.value.content) == Some(Cue(0, req.endMs, req.caption)))
  {
    BuildJobShape(req, env);
  }

  /** Wherever the corrected builder succeeds, the source's builder succeeds
      too, with the same parent, output location, upload, inputs, edit list,
      streams and retention; only the manifest list can differ, and only
      when there is no caption. */
  lemma BuildersAgree(req: MuxRequest, env: Environment)
    requires BuildJob(req, env).Ok?
    ensures BuildJobAsWritten(req, env).Ok?
    ensures var a, b := BuildJobAsWritten(req, env).value, BuildJob(req, env).value;
      && a.parent == b.parent && a.finalOutputUri == b.finalOutputUri && a.upload == b.upload
      && a.job.outputUri == b.job.outputUri && a.job.ttlAfterCompletionDays == b.job.ttlAfterCompletionDays
      && a.job.config.(manifests := b.job.config.manifests) == b.job.config
      && (req.caption != "" ==> a == b)
  {
    var project := env.auth.projectId;
    var keys := ManifestKeys(req.caption != "");
    BothBuildersSucceed(req, env);
    var a, b := BuildJobAsWritten(req, env).value, BuildJob(req, env).value;
    assert a == Assemble(req, env, project, SourceManifestKeys);
    assert b == Assemble(req, env, project, keys);
    AssembleDependsOnManifestOnly(req, env, project, SourceManifestKeys, keys);
    if req.caption != "" {
      CaptionKeepsAllMuxKeys();
    }
  }

  lemma CaptionKeepsAllMuxKeys()
    ensures ManifestKeys(true) == SourceManifestKeys
  {
  }

  lemma BothBuildersSucceed(req: MuxRequest, env: Environment)
    requires BuildJob(req, env).Ok?
    ensures BuildJobAsWritten(req, env).Ok?
  {
  }

  /** Two builds for the same request differ at most in their manifest. */
  lemma AssembleDependsOnManifestOnly(req: MuxRequest, env: Environment, project: string, k1: seq<string>, k2: seq<string>)
    ensures var a, b := Assemble(req, env, project, k1), Assemble(req, env, project, k2);
      && a.parent == b.parent && a.finalOutputUri == b.finalOutputUri && a.upload == b.upload
      && a.job.outputUri == b.job.outputUri && a.job.ttlAfterCompletionDays == b.job.ttlAfterCompletionDays
      && a.job.config.(manifests := b.job.config.manifests) == b.job.config
  {
  }
}

=== FILE: mux_audio.dfy ===
/** `mux_audio` end to end: build the job (raising on bad input, an
    unresolvable project or a failed caption upload), then submit and poll
    it, returning the output location or an `Error: ...` text. */
module MuxAudio {
  import opened Common
  import opened JobSpec
  import opened Poll
  import JobSpecProperties
  import opened WebVtt

  /** The backend's side of the conversation: the create call's result and
      the results of the successive get calls. */
  datatype Backend = Backend(create: CreateResult, responses: seq<GetResult>)

  /** How a call ends: an exception escaping to the caller, a returned
      string, or (when the backend script runs out) no answer yet. */
  datatype MuxResult = Raised(exc: Exc) | Returned(text: string) | NoAnswerYet

  datatype Submission = Submission(parent: string, job: Job)

  /** What the call did to the outside world: the caption it uploaded, the
      job it submitted, and how many times it polled. */
  datatype Effects = Effects(upload: Option<CaptionUpload>, submitted: Option<Submission>, polls: nat)

  datatype MuxRun = MuxRun(result: MuxResult, effects: Effects)

  function AsOutcome(m: MuxResult): Outcome
    requires !m.Raised?
  {
    if m.Returned? then Finished(m.text) else StillPolling
  }

  /** Submit and poll a built job, or raise the error that stopped the
      build: every failure after the job is built is returned as text rather
      than raised, and nothing is uploaded, submitted or polled when the
      build fails. */
  function Perform(build: Result<Built, BuildError>, backend: Backend): (r: MuxRun)
    ensures r.result.Raised? <==> build.Err?
    ensures build.Err? ==> r == MuxRun(Raised(RaisedBy(build.error)), Effects(None, None, 0))
    ensures build.Ok? ==> && r.effects.upload == build.value.upload
                          && r.effects.submitted == Some(Submission(build.value.parent, build.value.job))
    ensures build.Ok? && backend.create.CreateRaised?
            ==> r.result == Returned(ExceptionText(backend.create.exc)) && r.effects.polls == 0
    ensures build.Ok? && backend.create.Created?
            ==> Resolves(backend.create.name, build.value.finalOutputUri, backend.responses,
                         Run(AsOutcome(r.result), r.effects.polls))
  {
    match build
    case Err(e) => MuxRun(Raised(RaisedBy(e)), Effects(None, None, 0))
    case Ok(b) =>
      var run := Drive(backend.create, b.finalOutputUri, backend.responses);
      var result := match run.outcome
        case Finished(t) => Returned(t)
        case StillPolling => NoAnswerYet;
      MuxRun(result, Effects(b.upload, Some(Submission(b.parent, b.job)), run.polls))
  }

  /** The entry point with the corrected builder. Bad URIs raise a
      `ValueError` before anything is uploaded, submitted or polled; every
      build error is raised as its own exception; a job is submitted
      exactly when it could be built, and then the answer is the driver's. */
  function MuxAudio(req: MuxRequest, env: Environment, backend: Backend): (r: MuxRun)
    ensures CheckUris(req.videoUri, req.audioUri).Some?
            ==> r == MuxRun(Raised(RaisedBy(CheckUris(req.videoUri, req.audioUri).value)), Effects(None, None, 0))
    ensures r.result.Raised? <==> BuildJob(req, env).Err?
    ensures BuildJob(req, env).Err?
            ==> r == MuxRun(Raised(RaisedBy(BuildJob(req, env).error)), Effects(None, None, 0))
    ensures r.effects.submitted.Some? <==> BuildJob(req, env).Ok?
    ensures BuildJob(req, env).Ok? ==> r.effects.upload == BuildJob(req, env).value.upload
    ensures BuildJob(req, env).Ok?
            ==> r.effects.submitted == Some(Submission(BuildJob(req, env).value.parent, BuildJob(req, env).value.job))
    ensures BuildJob(req, env).Ok? && backend.create.CreateRaised?
            ==> r.result == Returned(ExceptionText(backend.create.exc)) && r.effects.polls == 0
    ensures BuildJob(req, env).Ok? && backend.create.Created?
            ==> Resolves(backend.create.name, FinalOutputUri(Bucket(env), env.outputHex), backend.responses,
                         Run(AsOutcome(r.result), r.effects.polls))
  {
    Perform(BuildJob(req, env), backend)
  }

  /** The entry point exactly as the source writes it, with the builder that
      uploads whatever `string_to_webvtt` returned and always lists three
      manifest entries. The driver part is the same. */
  function MuxAudioAsWritten(req: MuxRequest, env: Environment, backend: Backend): (r: MuxRun)
    ensures CheckUris(req.videoUri, req.audioUri).Some?
            ==> r == MuxRun(Raised(RaisedBy(CheckUris(req.videoUri, req.audioUri).value)), Effects(None, None, 0))
    ensures r.result.Raised? <==> BuildJobAsWritten(req, env).Err?
    ensures BuildJobAsWritten(req, env).Err?
            ==> r == MuxRun(Raised(RaisedBy(BuildJobAsWritten(req, env).error)), Effects(None, None, 0))
    ensures r.effects.submitted.Some? <==> BuildJobAsWritten(req, env).Ok?
    ensures BuildJobAsWritten(req, env).Ok? ==> r.effects.upload == BuildJobAsWritten(req, env).value.upload
    ensures BuildJobAsWritten(req, env).Ok?
            ==> var b := BuildJobAsWritten(req, env).value;
                r.effects.submitted == Some(Submission(b.parent, b.job))
    ensures BuildJobAsWritten(req, env).Ok? && backend.create.CreateRaised?
            ==> r.result == Returned(ExceptionText(backend.create.exc)) && r.effects.polls == 0
    ensures BuildJobAsWritten(req, env).Ok? && backend.create.Created?
            ==> Resolves(backend.create.name, FinalOutputUri(Bucket(env), env.outputHex), backend.responses,
                         Run(AsOutcome(r.result), r.effects.polls))
  {
    Perform(BuildJobAsWritten(req, env), backend)
  }

  /** A returned string is either the output location, a fresh `.mp4` name
      under `gs://<bucket>/muxed/`, or an `Error: ` text, never both; it is
      the location exactly when the job was created and its first terminal
      state was a success. */
  lemma ReturnedTextClassifies(req: MuxRequest, env: Environment, backend: Backend)
    requires MuxAudio(req, env, backend).result.Returned?
    ensures var r := MuxAudio(req, env, backend); var t := r.result.text;
      var uri := FinalOutputUri(Bucket(env), env.outputHex);
      && (t == uri <==> backend.create.Created? && backend.responses[r.effects.polls - 1].Got?
                        && backend.responses[r.effects.polls - 1].status.state == Succeeded)
      && (t != uri <==> StartsWith(t, "Error: "))
      && (t == uri ==> StartsWith(t, "gs://" + Bucket(env) + "/muxed/") && t[|OutputBase(Bucket(env))|..] == env.outputHex + ".mp4")
  {
    var uri := FinalOutputUri(Bucket(env), env.outputHex);
    assert StartsWith(uri, GsScheme) by {
      assert uri[..|GsScheme|] == GsScheme;
    }
    DistinctFirstChar(uri, GsScheme, "Error: ");
    VerdictDistinguishesSuccess(backend.create, uri, backend.responses);
  }

  /** Every job the corrected entry point submits is well formed, and with
      a caption it reads the very object the entry point uploaded. */
  lemma SubmittedJobWellFormed(req: MuxRequest, env: Environment, backend: Backend)
    requires MuxAudio(req, env, backend).effects.submitted.Some?
    ensures var r := MuxAudio(req, env, backend); var job := r.effects.submitted.value.job;
      && WellFormed(job.config)
      && (r.effects.upload.Some? <==> req.caption != "")
      && (req.caption != "" ==> job.config.inputs[2].uri
                                == ObjectUri(r.effects.upload.value.bucket, r.effects.upload.value.objectName))
  {
    JobSpecProperties.BuildJobWellFormed(req, env);
    JobSpecProperties.BuildJobInputs(req, env);
  }

  /** The source's entry point submits a well-formed job exactly when a
      caption was given; without one, the manifest it submits names
      `text-vtt-en`, which the job does not declare. */
  lemma AsWrittenSubmittedJobWellFormedIffCaption(req: MuxRequest, env: Environment, backend: Backend)
    requires MuxAudioAsWritten(req, env, backend).effects.submitted.Some?
    ensures var job := MuxAudioAsWritten(req, env, backend).effects.submitted.value.job;
      WellFormed(job.config) <==> req.caption != ""
  {
    JobSpecProperties.AsWrittenWellFormedIffCaption(req, env);
  }

  /** Where the two entry points part: for a caption over an empty or
      reversed range, the source uploads the range error text as the
      subtitle file and submits the job, while the corrected entry point
      raises the range `ValueError` having done nothing. */
  lemma EntryPointsOnEmptyRange(req: MuxRequest, env: Environment, backend: Backend)
    requires CheckUris(req.videoUri, req.audioUri).None? && ResolveProject(env.auth).Ok?
    requires req.caption != "" && req.endMs <= 0 && env.uploadFailure.None?
    ensures var w := MuxAudioAsWritten(req, env, backend);
      && w.effects.submitted.Some?
      && w.effects.upload.Some? && w.effects.upload.value.content == RangeError
    ensures MuxAudio(req, env, backend)
         == MuxRun(Raised(Exc("ValueError", RangeMessage)), Effects(None, None, 0))
  {
    JobSpecProperties.AsWrittenUploadsErrorText(req, env);
  }
}

=== FILE: poll.dfy ===
/** The job driver of `mux_audio` in `hack_agent/mux_audio.py`: submit the job,
    then poll its processing state until it succeeds or fails, turning every
    outcome, and every exception the two calls raise, into the one string
    the function returns.

    The backend is a finite script: the result of the create call and the
    sequence of results the successive get calls return. The source polls
    forever; here a script that runs out before a terminal state leaves the
    driver still polling. */
module Poll {
  import opened Common

  /** `Job.ProcessingState`. `Unrecognized` stands for a code outside the
      enum, together with the message of the `ValueError` that converting it
      to `Job.ProcessingState` raises (the text is the enum library's). */
  datatype ProcessingState =
    | Unspecified | Pending | Running | Succeeded | Failed
    | Unrecognized(code: int, lookupError: string)

  /** What one get call reports: the state, and the job's error field when
      it is set. */
  datatype JobStatus = JobStatus(state: ProcessingState, error: Option<string>)

  datatype GetResult = Got(status: JobStatus) | GetRaised(exc: Exc)

  datatype CreateResult = Created(name: string) | CreateRaised(exc: Exc)

  /** Either the string `mux_audio` returns, or no answer yet. */
  datatype Outcome = Finished(text: string) | StillPolling

  /** An outcome and how many get calls it took. */
  datatype Run = Run(outcome: Outcome, polls: nat)

  const UnknownError: string := "Unknown error"

  /** A response that ends the loop: success, failure, or an exception,
      including the one raised by naming a state outside the enum before
      any branch is taken. */
  predicate Terminal(g: GetResult) {
    match g
    case GetRaised(_) => true
    case Got(s) => s.state == Succeeded || s.state == Failed || s.state.Unrecognized?
  }

  function FailureMessage(s: JobStatus): string {
    match s.error
    case Some(m) => m
    case None => UnknownError
  }

  /** The exception the loop raises on a failed job. */
  function JobFailed(name: string, s: JobStatus): Exc {
    Exc("Exception", "Transcoder job '" + name + "' failed: " + FailureMessage(s))
  }

  /** The string returned for a terminal response. */
  function Verdict(name: string, finalUri: string, g: GetResult): string
    requires Terminal(g)
  {
    match g
    case GetRaised(e) => ExceptionText(e)
    case Got(s) =>
      match s.state
      case Succeeded => finalUri
      case Unrecognized(_, m) => ExceptionText(Exc("ValueError", m))
      case _ => ExceptionText(JobFailed(name, s))
  }

  /** The loop's specification: it stops at the first terminal response,
      having polled once per response up to and including that one, and
      returns that response's verdict; with no terminal response it has
      polled every response and is still waiting. */
  predicate Resolves(name: string, finalUri: string, responses: seq<GetResult>, r: Run) {
    match r.outcome
    case StillPolling =>
      r.polls == |responses| && forall j :: 0 <= j < |responses| ==> !Terminal(responses[j])
    case Finished(t) =>
      && 1 <= r.polls <= |responses|
      && Terminal(responses[r.polls - 1])
      && (forall j :: 0 <= j < r.polls - 1 ==> !Terminal(responses[j]))
      && t == Verdict(name, finalUri, responses[r.polls - 1])
  }

  /** The polling loop over a response script. */
  function PollResponses(name: string, finalUri: string, responses: seq<GetResult>): (r: Run)
    ensures Resolves(name, finalUri, responses, r)
    decreases |responses|
  {
    if |responses| == 0 then Run(StillPolling, 0)
    else if Terminal(responses[0]) then Run(Finished(Verdict(name, finalUri, responses[0])), 1)
    else
      var rest := PollResponses(name, finalUri, responses[1..]);
      Run(rest.outcome, rest.polls + 1)
  }

  /** The specification leaves no freedom: at most one run satisfies it. */
  lemma ResolvesUnique(name: string, finalUri: string, responses: seq<GetResult>, a: Run, b: Run)
    requires Resolves(name, finalUri, responses, a) && Resolves(name, finalUri, responses, b)
    ensures a == b
  {
  }

  /** The `while True` loop, written as a loop over the script. */
  method PollLoop(name: string, finalUri: string, responses: seq<GetResult>) returns (r: Run)
    ensures Resolves(name, finalUri, responses, r)
    ensures r == PollResponses(name, finalUri, responses)
  {
    var i := 0;
    r := Run(StillPolling, |responses|);
    while i < |responses|
      invariant 0 <= i <= |responses|
      invariant forall j :: 0 <= j < i ==> !Terminal(responses[j])
    {
      if Terminal(responses[i]) {
        r := Run(Finished(Verdict(name, finalUri, responses[i])), i + 1);
        break;
      }
      i := i + 1;
    }
    ResolvesUnique(name, finalUri, responses, r, PollResponses(name, finalUri, responses));
  }

  /** Submit, then poll: an exception from the create call is reported
      at once, with no poll made. */
  function Drive(create: CreateResult, finalUri: string, responses: seq<GetResult>): (r: Run)
    ensures create.CreateRaised? ==> r == Run(Finished(ExceptionText(create.exc)), 0)
    ensures create.Created? ==> Resolves(create.name, finalUri, responses, r)
  {
    match create
    case CreateRaised(e) => Run(Finished(ExceptionText(e)), 0)
    case Created(name) => PollResponses(name, finalUri, responses)
  }

  /** Waiting states only delay the answer: a prefix of non-terminal
      responses adds one poll each and changes nothing else. */
  lemma {:induction false} WaitingStatesOnlyDelay(name: string, finalUri: string, waiting: seq<GetResult>, rest: seq<GetResult>)
    requires forall j :: 0 <= j < |waiting| ==> !Terminal(waiting[j])
    ensures PollResponses(name, finalUri, waiting + rest)
         == Run(PollResponses(name, finalUri, rest).outcome, |waiting| + PollResponses(name, finalUri, rest).polls)
    decreases |waiting|
  {
    if |waiting| > 0 {
      assert (waiting + rest)[0] == waiting[0];
      assert (waiting + rest)[1..] == waiting[1..] + rest;
      WaitingStatesOnlyDelay(name, finalUri, waiting[1..], rest);
    } else {
      assert waiting + rest == rest;
    }
  }

  /** The returned text tells success from failure: when the success
      location does not itself start with `Error: `, the text is the success
      location exactly when the first terminal response is a success, and
      starts with `Error: ` otherwise. */
  lemma VerdictDistinguishesSuccess(create: CreateResult, finalUri: string, responses: seq<GetResult>)
    requires !StartsWith(finalUri, "Error: ")
    requires Drive(create, finalUri, responses).outcome.Finished?
    ensures var r := Drive(create, finalUri, responses); var t := r.outcome.text;
      && (t == finalUri <==> create.Created? && responses[r.polls - 1].Got?
                              && responses[r.polls - 1].status.state == Succeeded)
      && (t != finalUri <==> StartsWith(t, "Error: "))
  {
  }

  /** A state code outside the enum ends the loop at once with the
      `ValueError` that naming it raises; nothing is waited for. */
  lemma UnknownStateReportsValueError(name: string, finalUri: string, code: int, m: string, rest: seq<GetResult>)
    ensures Drive(Created(name), finalUri, [Got(JobStatus(Unrecognized(code, m), None))] + rest)
         == Run(Finished("Error: ValueError - " + m), 1)
  {
    var g := Got(JobStatus(Unrecognized(code, m), None));
    assert ([g] + rest)[0] == g;
    assert Verdict(name, finalUri, g) == "Error: " + "ValueError" + " - " + m;
    assert "Error: " + "ValueError" + " - " + m == "Error: ValueError - " + m;
  }

  /** The verdict of one response in the loop as the source writes it, if
      the enum has no member named `UNSPECIFIED`: a response that is neither
      SUCCEEDED nor FAILED, and names a state of the enum, reaches the tuple
      of line 386, and looking that member up raises `AttributeError` with
      message `attrError`. */
  function VerdictAsWritten(name: string, finalUri: string, attrError: string, g: GetResult): string {
    if Terminal(g) then Verdict(name, finalUri, g) else ExceptionText(Exc("AttributeError", attrError))
  }

  /** The polling loop as the source writes it under that reading: every
      response ends it, so it never polls more than once. */
  function PollResponsesAsWritten(name: string, finalUri: string, attrError: string, responses: seq<GetResult>): (r: Run)
    ensures r.polls == if |responses| == 0 then 0 else 1
    ensures r.outcome.StillPolling? <==> |responses| == 0
    ensures |responses| > 0 && !Terminal(responses[0])
            ==> r.outcome == Finished(ExceptionText(Exc("AttributeError", attrError)))
    ensures |responses| > 0 && Terminal(responses[0]) ==> r == PollResponses(name, finalUri, responses)
  {
    if |responses| == 0 then Run(StillPolling, 0)
    else Run(Finished(VerdictAsWritten(name, finalUri, attrError, responses[0])), 1)
  }

  /** The loop as written and the intended loop agree exactly when the
      first response is not a waiting state. */
  lemma AsWrittenAgreesIff(name: string, finalUri: string, attrError: string, responses: seq<GetResult>)
    ensures PollResponsesAsWritten(name, finalUri, attrError, responses) == PollResponses(name, finalUri, responses)
        <==> |responses| == 0 || Terminal(responses[0])
  {
  }

  /** RUNNING, RUNNING, SUCCEEDED: the intended loop waits twice and
      reports the output location; the loop as written stops at the first
      RUNNING with the `AttributeError` text. */
  lemma AsWrittenNeverWaits(name: string, finalUri: string, attrError: string)
    ensures var rs := [Got(JobStatus(Running, None)), Got(JobStatus(Running, None)), Got(JobStatus(Succeeded, None))];
      && PollResponsesAsWritten(name, finalUri, attrError, rs) == Run(Finished("Error: AttributeError - " + attrError), 1)
      && PollResponses(name, finalUri, rs) == Run(Finished(finalUri), 3)
  {
    assert ExceptionText(Exc("AttributeError", attrError)) == "Error: " + "AttributeError" + " - " + attrError;
    assert "Error: " + "AttributeError" + " - " + attrError == "Error: AttributeError - " + attrError;
  }

  /** Running twice, then succeeded: three polls and the output location. */
  lemma SucceedsOnThirdPoll(name: string, finalUri: string)
    ensures Drive(Created(name), finalUri,
                  [Got(JobStatus(Running, None)), Got(JobStatus(Running, None)), Got(JobStatus(Succeeded, None))])
         == Run(Finished(finalUri), 3)
  {
  }

  /** A failed job with message "boom" is reported with that message. */
  lemma FailureCarriesMessage(name: string, finalUri: string)
    ensures Drive(Created(name), finalUri, [Got(JobStatus(Failed, Some("boom")))])
         == Run(Finished("Error: Exception - Transcoder job '" + name + "' failed: boom"), 1)
  {
    var g := Got(JobStatus(Failed, Some("boom")));
    var m := "Transcoder job '" + name + "' failed: " + "boom";
    assert Verdict(name, finalUri, g) == "Error: " + "Exception" + " - " + m;
    FailureTextLayout(name);
  }

  lemma FailureTextLayout(name: string)
    ensures "Error: " + "Exception" + " - " + ("Transcoder job '" + name + "' failed: " + "boom")
         == "Error: Exception - Transcoder job '" + name + "' failed: boom"
  {
    assert "Error: " + "Exception" + " - " + "Transcoder job '" == "Error: Exception - Transcoder job '";
    assert "' failed: " + "boom" == "' failed: boom";
  }
}

=== FILE: webvtt.dfy ===
/** The caption formatter of `hack_agent/mux_audio.py`: `string_to_webvtt`
    and its inner `format_time`. It writes a single-cue WebVTT document
    (header line, blank line, `start --> end` cue timing, then the payload)
    with times rendered as `HH:MM:SS.mmm`.

    Times are integer milliseconds here; the source computes the same
    fields from a float number of seconds. */
module WebVtt {
  import opened Common
  import opened Decimal

  const Header: string := "WEBVTT\n\n"
  const Arrow: string := " --> "
  /** What `string_to_webvtt` returns instead of a document for an empty or
      reversed time range, and the message part of it. */
  const RangeMessage: string := "End time must be after start time."
  const RangeError: string := "Error: " + RangeMessage

  const MsPerSecond: nat := 1000
  const MsPerMinute: nat := 60000
  const MsPerHour: nat := 3600000

  /** `max(0, seconds)`: negative times are treated as zero. */
  function Clamp(ms: int): nat {
    if ms < 0 then 0 else ms
  }

  /** The four fields of a timestamp. */
  datatype Clock = Clock(hours: nat, minutes: nat, seconds: nat, millis: nat) {
    predicate Valid() {
      minutes < 60 && seconds < 60 && millis < 1000
    }

    function TotalMs(): nat {
      hours * MsPerHour + minutes * MsPerMinute + seconds * MsPerSecond + millis
    }
  }

  /** The field arithmetic of `format_time`: hours, minutes, seconds and
      milliseconds of the clamped time. Every field but the hours is bounded,
      and together they add back up to the clamped time exactly. */
  function ToClock(ms: int): (c: Clock)
    ensures c.Valid()
    ensures c.TotalMs() == Clamp(ms)
  {
    var t := Clamp(ms);
    var c := Clock(t / MsPerHour, (t % MsPerHour) / MsPerMinute, (t % MsPerMinute) / MsPerSecond, t % MsPerSecond);
    ClockFields(t);
    c
  }

  /** The step behind `ToClock`: splitting off whole hours, then whole
      minutes, leaves the same remainder as splitting off whole minutes
      directly, because an hour is a whole number of minutes. */
  lemma ClockFields(t: nat)
    ensures (t % MsPerHour) / MsPerMinute < 60
    ensures (t % MsPerMinute) / MsPerSecond < 60
    ensures (t / MsPerHour) * MsPerHour + ((t % MsPerHour) / MsPerMinute) * MsPerMinute
            + ((t % MsPerMinute) / MsPerSecond) * MsPerSecond + t % MsPerSecond == t
  {
    var h, r1 := t / MsPerHour, t % MsPerHour;
    assert t == h * MsPerHour + r1 && r1 < MsPerHour;
    var m, r2 := r1 / MsPerMinute, r1 % MsPerMinute;
    assert r1 == m * MsPerMinute + r2 && r2 < MsPerMinute;
    assert m < 60;
    assert t == (h * 60 + m) * MsPerMinute + r2;
    DivModUnique(t, MsPerMinute, h * 60 + m, r2);
    var s, f := r2 / MsPerSecond, r2 % MsPerSecond;
    assert r2 == s * MsPerSecond + f && f < MsPerSecond;
    assert t == (h * 3600 + m * 60 + s) * MsPerSecond + f;
    DivModUnique(t, MsPerSecond, h * 3600 + m * 60 + s, f);
  }

  /** Quotient and remainder are unique. */
  lemma DivModUnique(t: nat, d: nat, q: nat, r: nat)
    requires 0 <= r < d && t == q * d + r
    ensures t / d == q && t % d == r
  {
    var q', r' := t / d, t % d;
    assert t == q' * d + r';
    if q' < q {
      assert (q - q') * d >= d by { MulAtLeast(q - q', d); }
      assert false;
    } else if q' > q {
      assert (q' - q) * d >= d by { MulAtLeast(q' - q, d); }
      assert false;
    }
  }

  lemma MulAtLeast(k: nat, d: nat)
    requires k >= 1
    ensures k * d >= d
  {
  }

  /** A valid clock is determined by its total: no two valid clocks denote
      the same time, so `ToClock` is the only decomposition there is. */
  lemma ClockUnique(c: Clock)
    requires c.Valid()
    ensures ToClock(c.TotalMs()) == c
  {
    var t := c.TotalMs();
    var sub := c.seconds * MsPerSecond + c.millis;
    var rest := c.minutes * MsPerMinute + sub;
    DivModUnique(t, MsPerHour, c.hours, rest);
    DivModUnique(rest, MsPerMinute, c.minutes, sub);
    DivModUnique(t, MsPerMinute, c.hours * 60 + c.minutes, sub);
    DivModUnique(sub, MsPerSecond, c.seconds, c.millis);
    DivModUnique(t, MsPerSecond, c.hours * 3600 + c.minutes * 60 + c.seconds, c.millis);
  }

  predicate TimestampChar(c: char) {
    IsDigit(c) || c == ':' || c == '.'
  }

  /** Reads `H+:MM:SS.mmm` (at least two hour digits, minutes and seconds
      below 60) back into milliseconds. */
  function ParseTimestamp(t: string): Option<nat> {
    if |t| < 12 then None
    else
      var n := |t|;
      var hh, mm, ss, fff := t[..n - 10], t[n - 9..n - 7], t[n - 6..n - 4], t[n - 3..];
      if t[n - 10] == ':' && t[n - 7] == ':' && t[n - 4] == '.'
        && AllDigits(hh) && AllDigits(mm) && AllDigits(ss) && AllDigits(fff)
        && Value(mm) < 60 && Value(ss) < 60
      then Some(Clock(Value(hh), Value(mm), Value(ss), Value(fff)).TotalMs())
      else None
  }

  /** The `HH:MM:SS.mmm` layout of a clock. */
  function Render(c: Clock): string {
    Pad(c.hours, 2) + ":" + Pad(c.minutes, 2) + ":" + Pad(c.seconds, 2) + "." + Pad(c.millis, 3)
  }

  /** `format_time`: the clamped time as `HH:MM:SS.mmm`. Reading the text
      back gives the clamped time, so no field is truncated or lost; a
      negative time renders as `00:00:00.000`. */
  function FormatTime(ms: int): (r: string)
    ensures |r| >= 12
    ensures forall i :: 0 <= i < |r| ==> TimestampChar(r[i])
    ensures ParseTimestamp(r) == Some(Clamp(ms))
    ensures ms <= 0 ==> r == "00:00:00.000"
  {
    var c := ToClock(ms);
    RenderReadsBack(c);
    if ms <= 0 then
      NonPositiveIsMidnight(ms);
      RenderZero();
      Render(c)
    else
      Render(c)
  }

  lemma NonPositiveIsMidnight(ms: int)
    requires ms <= 0
    ensures ToClock(ms) == Clock(0, 0, 0, 0)
  {
  }

  lemma RenderZero()
    ensures Render(Clock(0, 0, 0, 0)) == "00:00:00.000"
  {
    assert Digits(0) == ['0'] && Zeros(1) == ['0'] && Zeros(2) == ['0', '0'];
    assert Pad(0, 2) == "00" && Pad(0, 3) == "000";
  }

  /** The rendering of a valid clock uses only digits, `:` and `.`, and
      reads back as the clock's total. */
  lemma RenderReadsBack(c: Clock)
    requires c.Valid()
    ensures |Render(c)| >= 12
    ensures forall i :: 0 <= i < |Render(c)| ==> TimestampChar(Render(c)[i])
    ensures ParseTimestamp(Render(c)) == Some(c.TotalMs())
  {
    assert Pow10(2) == 100 && Pow10(3) == 1000;
    PadExactWidth(c.minutes, 2);
    PadExactWidth(c.seconds, 2);
    PadExactWidth(c.millis, 3);
    TimestampLayout(Pad(c.hours, 2), Pad(c.minutes, 2), Pad(c.seconds, 2), Pad(c.millis, 3));
  }

  /** Where the fields of a timestamp sit, counted from its end. */
  lemma TimestampSlices(h: string, m: string, s: string, f: string)
    requires |m| == 2 && |s| == 2 && |f| == 3
    ensures var r := h + ":" + m + ":" + s + "." + f; var n := |r|;
      && n == |h| + 10
      && r[..n - 10] == h && r[n - 9..n - 7] == m && r[n - 6..n - 4] == s && r[n - 3..] == f
      && r[n - 10] == ':' && r[n - 7] == ':' && r[n - 4] == '.'
  {
    var r := h + ":" + m + ":" + s + "." + f;
    var n := |r|;
    assert r[..n - 10] == h;
    assert r[n - 9..n - 7] == m;
    assert r[n - 6..n - 4] == s;
    assert r[n - 3..] == f;
  }

  /** Four digit fields of the right widths, joined with `:`, `:` and `.`,
      read back as the time they denote. */
  lemma TimestampLayout(h: string, m: string, s: string, f: string)
    requires |h| >= 2 && |m| == 2 && |s| == 2 && |f| == 3
    requires AllDigits(h) && AllDigits(m) && AllDigits(s) && AllDigits(f)
    requires Value(m) < 60 && Value(s) < 60
    ensures var r := h + ":" + m + ":" + s + "." + f;
      && ParseTimestamp(r) == Some(Clock(Value(h), Value(m), Value(s), Value(f)).TotalMs())
      && forall i :: 0 <= i < |r| ==> TimestampChar(r[i])
  {
    TimestampSlices(h, m, s, f);
    TimestampChars(h, m, s, f);
  }

  lemma TimestampChars(h: string, m: string, s: string, f: string)
    requires |m| == 2 && |s| == 2 && |f| == 3
    requires AllDigits(h) && AllDigits(m) && AllDigits(s) && AllDigits(f)
    ensures var r := h + ":" + m + ":" + s + "." + f;
      forall i :: 0 <= i < |r| ==> TimestampChar(r[i])
  {
    var r := h + ":" + m + ":" + s + "." + f;
    forall i | 0 <= i < |r| ensures TimestampChar(r[i]) {
      if i < |h| { assert r[i] == h[i]; }
      else if i == |h| { }
      else if i < |h| + 3 { assert r[i] == m[i - |h| - 1]; }
      else if i == |h| + 3 { }
      else if i < |h| + 6 { assert r[i] == s[i - |h| - 4]; }
      else if i == |h| + 6 { }
      else { assert r[i] == f[i - |h| - 7]; }
    }
  }

  /** Minutes and seconds take two characters and milliseconds three; the
      hours take two characters below 100 hours and all their digits
      otherwise, so the timestamp is exactly 12 characters long precisely
      when the time is under 100 hours. */
  lemma FormatTimeWidth(ms: int)
    ensures |FormatTime(ms)| == 10 + |Pad(ToClock(ms).hours, 2)|
    ensures |FormatTime(ms)| == 12 <==> Clamp(ms) < 100 * MsPerHour
  {
    var c := ToClock(ms);
    assert Pow10(2) == 100 && Pow10(3) == 1000;
    PadExactWidth(c.minutes, 2);
    PadExactWidth(c.seconds, 2);
    PadExactWidth(c.millis, 3);
    if c.hours < 100 {
      PadExactWidth(c.hours, 2);
    } else {
      DigitsLengthLower(c.hours, 2);
    }
  }

  /** A number of at least 10^k needs more than k digits. */
  lemma {:induction false} DigitsLengthLower(n: nat, k: nat)
    requires n >= Pow10(k)
    ensures |Digits(n)| > k
  {
    if k > 0 {
      DigitsLengthLower(n / 10, k - 1);
    }
  }

  /** The one cue a document carries. */
  datatype Cue = Cue(startMs: nat, endMs: nat, text: string)

  /** Index of the first occurrence of `c` in `s`, if any. */
  function IndexOf(s: string, c: char): (r: Option<nat>)
    ensures r.Some? ==> r.value < |s| && s[r.value] == c
    ensures r.Some? ==> forall k :: 0 <= k < r.value ==> s[k] != c
    ensures r.None? ==> forall k :: 0 <= k < |s| ==> s[k] != c
  {
    if |s| == 0 then None
    else if s[0] == c then Some(0)
    else match IndexOf(s[1..], c)
      case None => None
      case Some(k) => Some(k + 1)
  }

  /** Reads a single-cue document: the header, a timing line up to the
      first line break, and everything after that line break as the cue
      payload. */
  function ParseWebVtt(doc: string): Option<Cue> {
    if !StartsWith(doc, Header) then None
    else
      var body := doc[|Header|..];
      match IndexOf(body, '\n')
      case None => None
      case Some(i) =>
        var timing := body[..i];
        match IndexOf(timing, ' ')
        case None => None
        case Some(j) =>
          if !StartsWith(timing[j..], Arrow) then None
          else match (ParseTimestamp(timing[..j]), ParseTimestamp(timing[j + |Arrow|..]))
            case (Some(s), Some(e)) => Some(Cue(s, e, body[i + 1..]))
            case _ => None
  }

  /** `string_to_webvtt`: for an empty or reversed range the fixed error
      text and nothing else; otherwise a document from which the clamped
      times and the caller's text, unescaped, are read back unchanged. */
  function StringToWebVtt(text: string, startMs: int, endMs: int): (r: string)
    ensures r == RangeError <==> endMs <= startMs
    ensures endMs > startMs ==> StartsWith(r, Header)
    ensures endMs > startMs ==> ParseWebVtt(r) == Some(Cue(Clamp(startMs), Clamp(endMs), text))
    ensures endMs > startMs ==> r == Header + FormatTime(startMs) + Arrow + FormatTime(endMs) + "\n" + text
  {
    if endMs <= startMs then RangeError
    else
      var a, b := FormatTime(startMs), FormatTime(endMs);
      var doc := Header + a + Arrow + b + "\n" + text;
      assert doc[..|Header|] == Header;
      assert doc[0] != RangeError[0];
      DocumentReadsBack(a, b, text);
      doc
  }

  /** The parsing half of the round trip, for any two timestamps. */
  lemma DocumentReadsBack(a: string, b: string, text: string)
    requires forall i :: 0 <= i < |a| ==> TimestampChar(a[i])
    requires forall i :: 0 <= i < |b| ==> TimestampChar(b[i])
    requires ParseTimestamp(a).Some? && ParseTimestamp(b).Some?
    ensures ParseWebVtt(Header + a + Arrow + b + "\n" + text)
         == Some(Cue(ParseTimestamp(a).value, ParseTimestamp(b).value, text))
  {
    var timing := a + Arrow + b;
    var body := timing + "\n" + text;
    var doc := Header + a + Arrow + b + "\n" + text;
    assert doc == Header + body;
    assert doc[..|Header|] == Header && doc[|Header|..] == body;
    TimingLineFree(a, b);
    FirstOccurrence(timing, '\n', text);
    assert body[..|timing|] == timing && body[|timing| + 1..] == text;
    TimingLineSplits(a, b);
  }

  /** The timing line holds no line break. */
  lemma TimingLineFree(a: string, b: string)
    requires forall i :: 0 <= i < |a| ==> TimestampChar(a[i])
    requires forall i :: 0 <= i < |b| ==> TimestampChar(b[i])
    ensures forall k :: 0 <= k < |a + Arrow + b| ==> (a + Arrow + b)[k] != '\n'
  {
    var timing := a + Arrow + b;
    forall k | 0 <= k < |timing| ensures timing[k] != '\n' {
      if k < |a| { assert timing[k] == a[k]; }
      else if k < |a| + |Arrow| { assert timing[k] == Arrow[k - |a|]; }
      else { assert timing[k] == b[k - |a| - |Arrow|]; }
    }
  }

  /** The first space of the timing line starts the arrow, so the line
      splits back into its two timestamps. */
  lemma TimingLineSplits(a: string, b: string)
    requires forall i :: 0 <= i < |a| ==> TimestampChar(a[i])
    ensures var timing := a + Arrow + b;
      && IndexOf(timing, ' ') == Some(|a|)
      && StartsWith(timing[|a|..], Arrow)
      && timing[..|a|] == a
      && timing[|a| + |Arrow|..] == b
  {
    var timing := a + Arrow + b;
    assert Arrow == [' '] + Arrow[1..];
    assert timing == a + [' '] + (Arrow[1..] + b);
    forall k | 0 <= k < |a| ensures a[k] != ' ' {
      assert TimestampChar(a[k]);
    }
    FirstOccurrence(a, ' ', Arrow[1..] + b);
    assert timing[|a|..] == Arrow + b;
    assert timing[|a|..][..|Arrow|] == Arrow;
  }

  /** In `s + [c] + rest` with no `c` in `s`, the first `c` sits at `|s|`. */
  lemma FirstOccurrence(s: string, c: char, rest: string)
    requires forall k :: 0 <= k < |s| ==> s[k] != c
    ensures IndexOf(s + [c] + rest, c) == Some(|s|)
  {
    var t := s + [c] + rest;
    assert t[|s|] == c;
    assert forall k :: 0 <= k < |s| ==> t[k] == s[k];
  }

  /** `format_time(3661.25)` is `01:01:01.250`. */
  lemma FormatTimeExample()
    ensures FormatTime(3661250) == "01:01:01.250"
  {
    assert ToClock(3661250) == Clock(1, 1, 1, 250);
    assert Digits(1) == ['1'] && Zeros(1) == ['0'];
    assert Pad(1, 2) == "01";
    assert Digits(250) == Digits(25) + ['0'];
    assert Digits(25) == ['2', '5'];
    assert Pad(250, 3) == "250";
    assert Render(Clock(1, 1, 1, 250)) == "01:01:01.250";
  }

  /** `format_time(5.5)` is `00:00:05.500`. */
  lemma FormatTimeHalfExample()
    ensures FormatTime(5500) == "00:00:05.500"
  {
    assert ToClock(5500) == Clock(0, 0, 5, 500);
    assert Digits(0) == ['0'] && Digits(5) == ['5'] && Zeros(1) == ['0'];
    assert Pad(0, 2) == "00" && Pad(5, 2) == "05";
    assert Digits(500) == Digits(50) + ['0'];
    assert Digits(50) == ['5', '0'];
    assert Pad(500, 3) == "500";
    assert Render(Clock(0, 0, 5, 500)) == "00:00:05.500";
  }

  /** A caption from 0 to 5.5 seconds reading "hi". */
  lemma CaptionExample()
    ensures StringToWebVtt("hi", 0, 5500) == "WEBVTT\n\n00:00:00.000 --> 00:00:05.500\nhi"
  {
    FormatTimeHalfExample();
    var a, b := FormatTime(0), FormatTime(5500);
    assert a == "00:00:00.000";
    assert StringToWebVtt("hi", 0, 5500) == Header + a + Arrow + b + "\n" + "hi";
    ExampleLayout(a, b);
  }

  lemma ExampleLayout(a: string, b: string)
    requires a == "00:00:00.000" && b == "00:00:05.500"
    ensures Header + a + Arrow + b + "\n" + "hi" == "WEBVTT\n\n00:00:00.000 --> 00:00:05.500\nhi"
  {
  }
}
